=== FILE: README.md ===
# Epidemic simulation cores, modelled in Dafny

This project models two simulators from the Epidemic-stimulation repository:

- **The spatial agent-based model** (`ABM.cpp`). Agents stand on a square grid. Each agent is in one of five states: Susceptible, Infected, Recovered, Vaccinated or Quarantined. Every tick runs four passes in order:
  1. Every agent that is not quarantined draws a direction and takes that unit step if the target cell is on the grid; otherwise it stays put, and no other direction is tried. Then the day counters of Infected and Quarantined agents advance.
  2. An in-place infection pass runs. Each agent that is Infected when its turn comes infects Susceptible agents within the contact radius with the infection probability. So an agent infected earlier in the pass can infect others later in the same pass.
  3. A resolution pass handles recovery, quarantine, release from quarantine after 5 days, and vaccine breakthrough with a fixed 5% chance.
  4. The agents in each state are counted.
- **The discrete Markov-chain S-I-R stepper** (`MARKOV_PROCESS_SIR.cpp`). It has a pure `next_state` transition and a deterministic initial layout: a Vaccinated prefix, then one Infected individual, then Susceptible. Each step updates every non-Vaccinated individual in index order and counts the four states.

All randomness is an explicit input. A draw stream is `Draws.Stream<T>`: an infinite sequence of draws plus the position of the next one. Each pass takes a stream and returns the rest of it.

- The agent-based model reads raw `rand()` values in `0 .. RAND_MAX`, in the order the source calls it. The same stream supplies `rand() % 4` for directions, `rand() % grid_size` for positions, and `rand() / RAND_MAX` for probability draws.
- The Markov chain reads uniform reals in `[0, 1)`, which is what `get_random()` returns.

Modules follow the program's structure:

- `Draws`: random streams.
- `Bags`: occurrence counting.
- `Agents`: the agent record, `move`, `update_days` and `is_in_contact`.
- `Transmission`: the infection and resolution passes.
- `Abm`: initialisation, the tick, counting and the run.
- `Markov`: the Markov-chain simulator.

Behaviour of the code that the model keeps and proves:

- One draw serves both the recovery and the quarantine comparison. So when the quarantine probability does not exceed the recovery probability, no agent ever enters quarantine (`Transmission.NoQuarantineWhenDominated`).
- Infection cascades within a single pass in agent-index order (`Abm.SameTickCascade`, and in general `Transmission.SpreadPassComplete`). The pass is not applied to a snapshot of the population.
- `rand() / RAND_MAX` can be exactly 1.0. So an infection probability of 1.0 does not make infection certain (`Abm.CertainInfectionCanMiss`).
- A population of one agent need not stay in {Infected, Recovered, Quarantined}. An agent that reaches the end of its quarantine returns to Susceptible (`Abm.LoneAgentLeavesQuarantine`). After that, with no infector, it stays Susceptible. If it recovers instead, it stays Recovered.
- Leaving quarantine does not reset `days_infected`. Only entering quarantine resets it.
- In the Markov layout, the write of the Infected individual at index `v = (int)(population_size * vaccination_rate)` needs `0 <= v < population_size`. A rate of 1 or more writes outside the vector (`Markov.FullVaccinationOverflows`). The model returns `Failure(IndexOutOfRange)` for every such layout, and `Failure(NegativePopulation)` for a negative size.

## Model

| member | source | states |
|---|---|---|
| Draws.Unit | ABM.cpp:108 | `rand() / RAND_MAX` lies in [0, 1]; it is 1.0 exactly when `rand()` returns RAND_MAX and 0.0 exactly when it returns 0 |
| Agents.Move | ABM.cpp:26-34 | a Quarantined agent is unchanged and consumes no draw; any other agent consumes one draw; state, day count and quarantine duration never change; a position on the grid stays on the grid; the agent either stays put or moves to a grid neighbour, exactly one coordinate changing by exactly 1 |
| Agents.NewAgent | ABM.cpp:23 | a new agent stands at the given `(x, y)` with the given state, no days counted and quarantine duration 5; it is valid on a grid exactly when that position lies on the grid |
| Agents.Step | ABM.cpp:29-32 | from a cell on the grid, the guarded if/else-if chain takes the step in the given direction when the target cell is on the grid and otherwise stays; in every case the agent stays put or moves to a neighbour |
| Agents.MoveIsBoundedStep | ABM.cpp:28-32 | from a cell on the grid, a moving agent goes to the cell its direction (`rand() % 4`: left, right, down, up) points to if that cell is on the grid, and otherwise stays; a blocked direction is not retried |
| Agents.InContact | ABM.cpp:45-49 | the contact test: squared distance at most the squared radius; its properties are stated by the Contact lemmas below |
| Agents.UpdateDays | ABM.cpp:37-41 | the day count goes up by one exactly when the agent is Infected or Quarantined, and is otherwise unchanged; no other field changes |
| Agents.ContactSymmetric | ABM.cpp:45-49 | contact is symmetric in its two agents |
| Agents.ContactReflexive | ABM.cpp:45-49 | every agent is in contact with itself, for any radius |
| Agents.ContactByPosition | ABM.cpp:45-49 | contact depends only on the two positions, not on state or counters |
| Agents.ContactWithinAxes | ABM.cpp:45-49 | for a non-negative radius, agents in contact are at most `radius` apart along each axis |
| Agents.ManhattanContact | ABM.cpp:45-49 | agents whose grid (Manhattan) distance is at most `radius` are in contact |
| Transmission.SpreadFrom | ABM.cpp:105-113 | one infector's scan only turns Susceptible agents into Infected agents and leaves everything else alone; it leaves agents before the scan start untouched; every agent it infects is within contact range of the infector; the first agent scanned is infected iff it is Susceptible, in contact and the next draw is below the infection probability; with infection probability <= 0 it changes nothing |
| Transmission.SpreadFromExact | ABM.cpp:105-113 | one infector's scan, exactly: agent k is infected iff it is Susceptible, in contact with the infector, and the draw it costs (the one after the draws of the exposed agents scanned before it) is below the infection probability; the scan takes one draw per exposed agent and no others |
| Transmission.SpreadFromAt | ABM.cpp:105-113 | agent k of one infector's scan is infected iff it is Susceptible, in contact with the infector, and the draw after those of the exposed agents scanned before it is below the infection probability |
| Transmission.SpreadFromDraws | ABM.cpp:105-113 | one infector's scan consumes exactly one draw per Susceptible agent in contact with it, and no other draws |
| Transmission.SpreadFromComplete | ABM.cpp:105-113 | when every remaining draw is below the infection probability, the scan infects every Susceptible agent in contact with the infector |
| Transmission.SpreadPass | ABM.cpp:102-115 | the infection pass only turns Susceptible agents into Infected agents; positions, day counts and every non-Susceptible agent are untouched; with infection probability <= 0 it changes nothing |
| Transmission.SpreadPassComplete | ABM.cpp:102-115 | when every remaining draw is below the infection probability, the pass from agent i on infects every Susceptible agent in contact with an agent (at index i or later) that is Infected when the pass reaches it; applied at each turn of the pass, this covers agents infected earlier in the same pass |
| Transmission.SpreadSound | ABM.cpp:102-115 | every agent the infection pass infects has, after the pass, a different Infected agent within contact range |
| Transmission.Resolve | ABM.cpp:119-139 | Susceptible and Recovered agents are unchanged and draw nothing; an Infected agent draws once, becomes Recovered iff the draw is below the recovery probability, and becomes Quarantined with days reset to 0 iff the draw is at least the recovery probability and below the quarantine probability; a Quarantined agent becomes Susceptible iff its days reach the quarantine duration; a Vaccinated agent draws once and becomes Infected iff the draw is below 0.05 |
| Transmission.ResolvePass | ABM.cpp:118-140 | the resolution pass keeps the agent count, and each agent moves only along the allowed transitions: S and R fixed, I to I, R, or (only when recovery < quarantine probability) Q with days 0; Q to S exactly at the end of quarantine; V to V or I |
| Transmission.ResolvePassExact | ABM.cpp:118-140 | the resolution pass, exactly: agent k ends as `Resolve` leaves it when handed the draw after those of the Infected and Vaccinated agents before it; the pass consumes one draw per Infected or Vaccinated agent and no others |
| Transmission.ResolvePassAt | ABM.cpp:118-140 | agent k of the resolution pass is resolved with the draw that follows those of the Infected and Vaccinated agents before it |
| Transmission.ResolvePassDraws | ABM.cpp:118-140 | the resolution pass consumes exactly one draw per Infected or Vaccinated agent |
| Transmission.NoQuarantineWhenDominated | ABM.cpp:121-127 | when the quarantine probability does not exceed the recovery probability, no agent enters quarantine in the resolution pass |
| Abm.InitRest | ABM.cpp:86-91 | agents 1 .. m are built from three consecutive draws each (x, y, vaccination); each is Vaccinated iff its third draw is below the vaccination probability; exactly 3m draws are consumed |
| Abm.Init | ABM.cpp:86-91 | initialisation yields `max(num_agents, 0)` valid agents: on the grid, day count 0, quarantine duration 5; agent 0 is Infected; every other agent is Vaccinated or Susceptible, Vaccinated iff its vaccination draw (position 3k + 1) is below the vaccination probability |
| Abm.InitDraws | ABM.cpp:86-91 | agent 0 stands at `(rand() % grid_size, rand() % grid_size)` from the first two draws; agent k >= 1 stands at draws 3k - 1 and 3k taken mod the grid size; initialisation consumes `3 * num_agents - 1` draws, and none for a non-positive count |
| Abm.MoveAll | ABM.cpp:96-99 | the movement loop keeps every agent's state and quarantine duration; it ages Infected and Quarantined agents by one day; it moves an agent by at most one cell, and never a Quarantined agent; it keeps agents on the grid |
| Abm.MoveAllExact | ABM.cpp:96-99 | the movement loop, exactly: agent k is moved by `move` with the draw after those of the non-Quarantined agents before it, then aged by `update_days`; the loop consumes one draw per non-Quarantined agent and no others |
| Abm.MoveAllAt | ABM.cpp:96-99 | agent k of the movement loop is moved with the draw that follows those of the non-Quarantined agents before it, then aged |
| Abm.MoveAllDraws | ABM.cpp:96-99 | the movement loop consumes exactly one draw per non-Quarantined agent |
| Abm.Count | ABM.cpp:143-153 | the counting `switch` applied to every agent in index order; its meaning is stated by `Abm.CountTotal` and `Abm.CountIsCensus` |
| Abm.CountTotal | ABM.cpp:143-153 | the five counts add up to the number of agents |
| Abm.CountIsCensus | ABM.cpp:143-153 | each count equals the number of agents in that state |
| Abm.Tick | ABM.cpp:94-140 | a tick neither adds nor removes agents |
| Abm.TickPerAgent | ABM.cpp:96-140 | over one tick an agent keeps its quarantine duration and stays valid; a Recovered agent stays Recovered; a Quarantined agent ages one day, stays in its cell, and becomes Susceptible exactly when the aged day count reaches its quarantine duration |
| Abm.TickPreservesValid | ABM.cpp:96-140 | a tick keeps every agent on the grid with a non-negative day count and the fixed quarantine duration |
| Abm.TickKeepsRecovered | ABM.cpp:102-153 | Recovered is absorbing across a tick, so the Recovered count after a tick is at least the count before |
| Abm.Run | ABM.cpp:94-164 | a run keeps the agent count and emits one row per step (none for a non-positive step count) |
| Abm.RunConservesAgents | ABM.cpp:143-156 | every row of a run counts every agent exactly once |
| Abm.RunPreservesValid | ABM.cpp:94-140 | agents stay valid, on the grid in particular, for a whole run |
| Abm.RunRecoveredGrows | ABM.cpp:94-156 | the Recovered column never decreases from row to row, and the first row has at least as many Recovered agents as the starting population |
| Abm.QuarantineCountdown | ABM.cpp:37-41 | a Quarantined agent with more than m days of quarantine left is, after m ticks, still Quarantined in the same cell with m more days |
| Abm.QuarantineRelease | ABM.cpp:128-132 | an agent Quarantined with d days counted is Susceptible exactly `quarantine_duration - d` ticks later |
| Abm.LoneAgentLeavesQuarantine | ABM.cpp:128-132 | a lone agent at the end of its quarantine becomes Susceptible after the tick |
| Abm.SameTickCascade | ABM.cpp:102-115 | an agent infected in the pass infects, in the same pass, an agent out of reach of every agent Infected when the pass began |
| Abm.CertainInfectionCanMiss | ABM.cpp:108-111 | with infection probability 1.0, a draw of RAND_MAX leaves an in-contact Susceptible agent uninfected |
| Abm.Simulate | ABM.cpp:77-167 | a simulation emits `max(total_steps, 0)` rows; each row sums to `max(num_agents, 0)`; the Recovered column never decreases |
| Markov.NextState | MARKOV_PROCESS_SIR.cpp:21-34 | Susceptible goes only to Infected or stays, and becomes Infected iff the draw is below `p_si` (halved under protection); Infected goes only to Recovered or stays, and becomes Recovered iff the draw is below `p_ir`; Recovered and Vaccinated are returned unchanged |
| Markov.ProtectionHalvesInfectionOnly | MARKOV_PROCESS_SIR.cpp:24-30 | protection acts exactly as halving `p_si`; for any state other than Susceptible it changes nothing, so `p_ir` is unaffected |
| Markov.ProtectionNeverHurts | MARKOV_PROCESS_SIR.cpp:24-29 | for `p_si >= 0`, a protected individual is infected only if an unprotected one would be for the same draw |
| Markov.VaccinatedCount | MARKOV_PROCESS_SIR.cpp:64 | the number vaccinated is `population_size * vaccination_rate` truncated toward zero (the largest integer not above a non-negative product, the smallest not below a negative one); hence for a positive population and a rate in [0, 1) it is a valid index below the population size, a rate of 1 or more gives at least the population size, and a negative rate gives at most 0 |
| Markov.TruncateToInt | MARKOV_PROCESS_SIR.cpp:64 | the double-to-int conversion truncates toward zero: for non-negative x the floor, for negative x the ceiling |
| Markov.MarkVaccinated | MARKOV_PROCESS_SIR.cpp:65-67 | the loop sets positions i .. v-1 to Vaccinated and leaves every other position as it was |
| Markov.InitialLayout | MARKOV_PROCESS_SIR.cpp:62-69 | a negative size fails; otherwise the layout succeeds iff `0 <= v < population_size`, and then positions below v are Vaccinated, position v is Infected and the rest are Susceptible |
| Markov.FullVaccinationOverflows | MARKOV_PROCESS_SIR.cpp:64-69 | a vaccination rate of 1 or more leaves no in-bounds index for the Infected individual |
| Markov.LayoutCensus | MARKOV_PROCESS_SIR.cpp:62-69 | the layout holds v Vaccinated, one Infected, `population_size - v - 1` Susceptible and no Recovered |
| Markov.CountStates | MARKOV_PROCESS_SIR.cpp:83-86 | the if/else-if counting chain applied to every individual in index order; its meaning is stated by `Markov.CountIsCensus` |
| Markov.CountIsCensus | MARKOV_PROCESS_SIR.cpp:83-86 | each count equals the number of individuals in that state, and the four counts sum to the population size |
| Markov.StepFrom | MARKOV_PROCESS_SIR.cpp:77-81 | a step keeps the population size, leaves already-visited positions alone, and moves every later individual only along S to S or I, I to I or R, R to R, V to V |
| Markov.StepFromExact | MARKOV_PROCESS_SIR.cpp:77-81 | the step loop from index i on, exactly: a Vaccinated individual stays Vaccinated and draws nothing; any other individual k becomes `next_state` of its state, with protection iff the draw at `p` is below the protection rate and transition draw `p + 1`, where `p` is the start position plus two per non-Vaccinated individual from i up to k; the loop consumes two draws per non-Vaccinated individual and no others |
| Markov.StepFromAt | MARKOV_PROCESS_SIR.cpp:77-81 | individual k of the step loop is stepped with the two draws that follow those of the non-Vaccinated individuals before it, or stays Vaccinated |
| Markov.StepFromDraws | MARKOV_PROCESS_SIR.cpp:77-81 | the step loop consumes exactly two draws per non-Vaccinated individual |
| Markov.StepRow | MARKOV_PROCESS_SIR.cpp:77-86 | the row one step writes counts every individual, keeps the Vaccinated count, and has at least as many Recovered and at most as many Susceptible individuals as before the step |
| Markov.StepAndCount | MARKOV_PROCESS_SIR.cpp:75-87 | the fused update-and-count loop yields the same population and remaining draws as the step, counts of the updated population that match it state by state, and counts that sum to the population size |
| Markov.StepCensus | MARKOV_PROCESS_SIR.cpp:78-81 | a step keeps the Vaccinated count, never lowers the Recovered count and never raises the Susceptible count |
| Markov.RunSteps | MARKOV_PROCESS_SIR.cpp:74-87 | a run emits one row per step |
| Markov.RunStepsCensus | MARKOV_PROCESS_SIR.cpp:74-89 | every row sums to the population size and reports the starting Vaccinated count; Recovered never decreases and Susceptible never increases from row to row |
| Markov.Simulate | MARKOV_PROCESS_SIR.cpp:61-98 | the run succeeds iff the layout does; it then emits `max(total_steps, 0)` rows; each row sums to `population_size` with exactly v Vaccinated; Recovered rises and Susceptible falls monotonically |

## Left out

- File and console output: `save_to_csv`, the `ofstream` header lines, the per-step `cout` lines, `read_parameters` and `load_parameters`. These are stream plumbing. The rows the model returns are what would be written.
- Random sources: `srand(time(0))`, `rand()`, and the `random_device`/`mt19937` behind `get_random`. These are replaced by the explicit draw stream. `RAND_MAX` is fixed at the glibc value 2147483647.
- Floating point: probabilities and draws are exact reals. So `rand() / RAND_MAX`, `p_si * 0.5` and the comparison with 0.05 carry no double rounding.
- Markov.VaccinatedCount: `population_size * vaccination_rate` is computed exactly and then truncated. The source multiplies in double first. So the truncated count can differ by one: for 10 and 0.7 the double product rounds to exactly 7.0, giving 7, while the product of the same double taken exactly is just below 7, giving 6. The layout index, and whether the layout fails for a rate just below 1, can differ accordingly.
- Integer width: positions, day counts and squared distances are unbounded integers. In the source, 32-bit `int` overflow is possible in several places:
  - `infection_radius * infection_radius` once the radius's absolute value exceeds 46340;
  - `dx * dx + dy * dy` once the grid size exceeds 32768;
  - the double-to-int conversion of the vaccinated count when it falls outside the `int` range.
- `main` in both files, `main.cpp`, `version.cpp`, `plot.cpp` and `main.py`: GUI, shell and plotting front ends, which are not part of this model.
- `SIR.cpp`, `SEIR.cpp`, `SIS.cpp` and `BRANCHING.cpp`: floating-point integrators and a Poisson branching process, which are not part of this model.
- Abm.Init: requires `num_agents <= 0 || grid_size > 0`. A positive agent count with grid size 0 makes the source evaluate `rand() % 0`, which is undefined behaviour and has no error path to model. A negative grid size is excluded as well. There `rand() % grid_size` still gives a coordinate in `0 .. |grid_size| - 1`, since `rand()` is non-negative, so C's truncating `%` and Dafny's `%` agree. But no coordinate satisfies `0 <= x < grid_size`, so the validity that `Abm.Init` promises (`Agents.Valid`) cannot hold. The source's behaviour on that input is not modelled.
- Abm.Simulate: carries the same requirement as `Abm.Init`, for the same reason.
- Abm.Tick: its own contract states only that the agent count is kept. The per-agent behaviour, validity and Recovered facts are stated by `Abm.TickPerAgent`, `Abm.TickPreservesValid` and `Abm.TickKeepsRecovered`.
- Abm.Run: its own contract states only the row and agent counts. Conservation, validity and monotonicity are stated by `Abm.RunConservesAgents`, `Abm.RunPreservesValid` and `Abm.RunRecoveredGrows`.
- Abm.MoveAll: its own contract bounds what the movement loop can do to each agent. Which step each agent takes, and the draws it takes them with, are stated by `Abm.MoveAllExact`.
- Transmission.ResolvePass: its own contract bounds the transitions. Which transition each agent takes, and with which draw, is stated by `Transmission.ResolvePassExact`.
- Markov.StepFrom: its own contract bounds the transitions. Which transition each individual takes, and with which draws, is stated by `Markov.StepFromExact`.
- Abm.Count: carries no contract of its own. Its totals and per-state counts are stated by `Abm.CountTotal` and `Abm.CountIsCensus`.
- Markov.CountStates: carries no contract of its own. Its counts are stated by `Markov.CountIsCensus`.
- Agents.InContact: a predicate with no contract of its own. Its properties are stated by the Contact lemmas.
- Markov.RunSteps: its own contract states only the row count. The census facts are stated by `Markov.RunStepsCensus`.

=== FILE: abm.dfy ===
/** `abm_simulation` without its file and console output: initialisation,
    the per-tick passes, the per-state counts and the run of ticks. */
module Abm {
  import opened Draws
  import opened Agents
  import opened Transmission
  import Bags

  datatype Config = Config(
    numAgents: int,
    gridSize: int,
    infectionProb: real,
    recoveryProb: real,
    vaccinationProb: real,
    quarantineProb: real,
    infectionRadius: int,
    totalSteps: int)

  /** One output row: how many agents are in each state after a tick. */
  datatype Tally = Tally(susceptible: nat, infected: nat, recovered: nat, vaccinated: nat, quarantined: nat) {
    function Total(): nat {
      susceptible + infected + recovered + vaccinated + quarantined
    }
  }

  function States(s: Population): (r: seq<State>)
    ensures |r| == |s| && forall k :: 0 <= k < |s| ==> r[k] == s[k].state
  {
    if |s| == 0 then [] else States(s[..|s| - 1]) + [s[|s| - 1].state]
  }

  /** The counting `switch` for one state. */
  function Bump(t: Tally, s: State): Tally {
    match s
    case Susceptible => t.(susceptible := t.susceptible + 1)
    case Infected => t.(infected := t.infected + 1)
    case Recovered => t.(recovered := t.recovered + 1)
    case Vaccinated => t.(vaccinated := t.vaccinated + 1)
    case Quarantined => t.(quarantined := t.quarantined + 1)
  }

  /** The counting loop (one `switch` per agent, in index order). */
  function Count(s: Population): Tally {
    if |s| == 0 then Tally(0, 0, 0, 0, 0)
    else Bump(Count(s[..|s| - 1]), s[|s| - 1].state)
  }

  /** The five counts add up to the number of agents. */
  lemma {:induction false} CountTotal(s: Population)
    ensures Count(s).Total() == |s|
  {
    if |s| > 0 {
      CountTotal(s[..|s| - 1]);
    }
  }

  /** `t` holds, for each state, how often it occurs in `m`. */
  predicate Censused(t: Tally, m: multiset<State>) {
    && t.susceptible == m[Susceptible]
    && t.infected == m[Infected]
    && t.recovered == m[Recovered]
    && t.vaccinated == m[Vaccinated]
    && t.quarantined == m[Quarantined]
  }

  /** Each count is the number of agents in that state. */
  lemma {:induction false} CountIsCensus(s: Population)
    ensures Censused(Count(s), multiset(States(s)))
  {
    if |s| > 0 {
      var init := s[..|s| - 1];
      var last := s[|s| - 1].state;
      CountIsCensus(init);
      BumpCensus(Count(init), multiset(States(init)), last);
      assert States(s) == States(init) + [last];
    }
  }

  lemma BumpCensus(t: Tally, m: multiset<State>, st: State)
    requires Censused(t, m)
    ensures Censused(Bump(t, st), m + multiset{st})
  {
  }

  /** Agents 1 .. m of the initial population.  Each takes three draws, in the
      order the source makes them: x, y, then the vaccination draw. */
  function InitRest(m: nat, gridSize: int, vaccinationProb: real, rng: Stream<Raw>)
    : (r: (Population, Stream<Raw>))
    requires gridSize > 0
    ensures |r.0| == m
    ensures r.1 == Stream(rng.at, rng.pos + 3 * m)
    ensures forall t :: 0 <= t < m ==>
      r.0[t] == NewAgent(rng.at(rng.pos + 3 * t) % gridSize, rng.at(rng.pos + 3 * t + 1) % gridSize,
                         if Unit(rng.at(rng.pos + 3 * t + 2)) < vaccinationProb then Vaccinated else Susceptible)
    decreases m
  {
    if m == 0 then ([], rng)
    else
      var x := rng.Head() % gridSize;
      var y := rng.Tail().Head() % gridSize;
      var state := if Unit(rng.Tail().Tail().Head()) < vaccinationProb then Vaccinated else Susceptible;
      var (rest, rng') := InitRest(m - 1, gridSize, vaccinationProb, rng.Tail().Tail().Tail());
      ([NewAgent(x, y, state)] + rest, rng')
  }

  /** The initialisation loop: agent 0 is Infected and takes two draws (x, y);
      agent k >= 1 takes three, starting at offset 3k - 1. */
  function Init(numAgents: int, gridSize: int, vaccinationProb: real, rng: Stream<Raw>)
    : (r: (Population, Stream<Raw>))
    requires numAgents <= 0 || gridSize > 0
    ensures |r.0| == if numAgents > 0 then numAgents else 0
    ensures AllValid(r.0, gridSize)
    ensures forall k :: 0 <= k < |r.0| ==> r.0[k].daysInfected == 0
    ensures |r.0| > 0 ==> r.0[0].state == Infected
    ensures forall k :: 1 <= k < |r.0| ==> r.0[k].state == Vaccinated || r.0[k].state == Susceptible
    ensures forall k :: 1 <= k < |r.0| ==>
      (r.0[k].state == Vaccinated <==> Unit(rng.at(rng.pos + 3 * k + 1)) < vaccinationProb)
  {
    if numAgents <= 0 then ([], rng)
    else
      var first := NewAgent(rng.Head() % gridSize, rng.Tail().Head() % gridSize, Infected);
      var (rest, rng') := InitRest(numAgents - 1, gridSize, vaccinationProb, rng.Tail().Tail());
      ([first] + rest, rng')
  }

  /** Where initialisation puts the agents and which draws it consumes: agent 0
      stands at the first two draws (mod the grid size), agent k >= 1 at draws
      3k - 1 and 3k, and `3 * num_agents - 1` draws are taken in all. */
  lemma {:induction false} InitDraws(numAgents: int, gridSize: int, vaccinationProb: real, rng: Stream<Raw>)
    requires numAgents <= 0 || gridSize > 0
    ensures var r := Init(numAgents, gridSize, vaccinationProb, rng);
            && (numAgents > 0 ==> r.0[0].x == rng.at(rng.pos) % gridSize && r.0[0].y == rng.at(rng.pos + 1) % gridSize)
            && (forall k :: 1 <= k < |r.0| ==>
                  r.0[k].x == rng.at(rng.pos + 3 * k - 1) % gridSize && r.0[k].y == rng.at(rng.pos + 3 * k) % gridSize)
            && r.1 == Stream(rng.at, rng.pos + if numAgents > 0 then 3 * numAgents - 1 else 0)
  {
    if numAgents > 0 {
      var rest := InitRest(numAgents - 1, gridSize, vaccinationProb, rng.Tail().Tail());
      var r := Init(numAgents, gridSize, vaccinationProb, rng);
      assert r.0 == [NewAgent(rng.Head() % gridSize, rng.Tail().Head() % gridSize, Infected)] + rest.0;
      forall k | 1 <= k < |r.0|
        ensures r.0[k].x == rng.at(rng.pos + 3 * k - 1) % gridSize && r.0[k].y == rng.at(rng.pos + 3 * k) % gridSize
      {
        assert r.0[k] == rest.0[k - 1];
      }
    }
  }

  /** What the movement loop does to one agent: it may take one unit step
      (never when Quarantined), stays on the grid, and ages by a day when
      Infected or Quarantined; its state does not change. */
  predicate MovedAndAged(a: Agent, b: Agent, gridSize: int) {
    && b.state == a.state
    && b.quarantineDuration == a.quarantineDuration
    && b.daysInfected == a.daysInfected + (if Counting(a.state) then 1 else 0)
    && (SamePosition(a, b) || (a.state != Quarantined && Neighbours(a, b)))
    && (InBounds(a, gridSize) ==> InBounds(b, gridSize))
  }

  /** The movement loop: `move` then `update_days` for each agent in order. */
  function MoveAll(s: Population, gridSize: int, rng: Stream<Raw>): (r: (Population, Stream<Raw>))
    ensures |r.0| == |s|
    ensures forall k {:trigger r.0[k]} :: 0 <= k < |s| ==> MovedAndAged(s[k], r.0[k], gridSize)
  {
    if |s| == 0 then ([], rng)
    else
      var (a, rng') := Move(s[0], gridSize, rng);
      var (rest, rng'') := MoveAll(s[1..], gridSize, rng');
      ([UpdateDays(a)] + rest, rng'')
  }

  /** How many draws the movement loop takes over `s`: one per agent not in quarantine. */
  function MoveDraws(s: Population): nat {
    if |s| == 0 then 0
    else (if s[0].state != Quarantined then 1 else 0) + MoveDraws(s[1..])
  }

  /** The movement loop consumes exactly one draw per agent not in quarantine. */
  lemma {:induction false} MoveAllDraws(s: Population, gridSize: int, rng: Stream<Raw>)
    ensures MoveAll(s, gridSize, rng).1 == Stream(rng.at, rng.pos + MoveDraws(s))
  {
    if |s| > 0 {
      MoveAllDraws(s[1..], gridSize, Move(s[0], gridSize, rng).1);
    }
  }

  /** Past the first agent, the movement loop carries on over the rest from
      the stream the first agent leaves. */
  lemma MoveAllShift(s: Population, gridSize: int, rng: Stream<Raw>, k: nat)
    requires 0 < k < |s|
    ensures MoveAll(s, gridSize, rng).0[k] == MoveAll(s[1..], gridSize, Move(s[0], gridSize, rng).1).0[k - 1]
  {
  }

  /** Splitting the first agent off a prefix of the draw count. */
  lemma MoveDrawsShift(s: Population, k: nat)
    requires 0 < k <= |s|
    ensures MoveDraws(s[..k]) == (if s[0].state != Quarantined then 1 else 0) + MoveDraws(s[1..][..k - 1])
  {
    assert s[..k][1..] == s[1..][..k - 1];
  }

  /** Agent `k` of the movement loop is moved by `Move` with the draw that
      follows those of the moving agents before it, and then aged. */
  lemma {:induction false} MoveAllAt(s: Population, gridSize: int, rng: Stream<Raw>, k: nat)
    requires k < |s|
    ensures MoveAll(s, gridSize, rng).0[k]
            == UpdateDays(Move(s[k], gridSize, Stream(rng.at, rng.pos + MoveDraws(s[..k]))).0)
  {
    if k == 0 {
      assert MoveAll(s, gridSize, rng).0[0] == UpdateDays(Move(s[0], gridSize, rng).0);
      assert Stream(rng.at, rng.pos + MoveDraws(s[..0])) == rng;
    } else {
      var first := Move(s[0], gridSize, rng);
      assert first.1 == Stream(rng.at, rng.pos + if s[0].state != Quarantined then 1 else 0);
      MoveAllShift(s, gridSize, rng, k);
      MoveDrawsShift(s, k);
      MoveAllAt(s[1..], gridSize, first.1, k - 1);
      assert s[1..][k - 1] == s[k];
      assert Stream(first.1.at, first.1.pos + MoveDraws(s[1..][..k - 1])) == Stream(rng.at, rng.pos + MoveDraws(s[..k]));
      assert Move(s[1..][k - 1], gridSize, Stream(first.1.at, first.1.pos + MoveDraws(s[1..][..k - 1])))
             == Move(s[k], gridSize, Stream(rng.at, rng.pos + MoveDraws(s[..k])));
    }
  }

  /** The movement loop, exactly: every agent takes its step with its own draw,
      in index order, agents in quarantine drawing nothing; each is then aged. */
  lemma {:induction false} MoveAllExact(s: Population, gridSize: int, rng: Stream<Raw>)
    ensures MoveAll(s, gridSize, rng).1 == Stream(rng.at, rng.pos + MoveDraws(s))
    ensures forall k :: 0 <= k < |s| ==>
              MoveAll(s, gridSize, rng).0[k]
              == UpdateDays(Move(s[k], gridSize, Stream(rng.at, rng.pos + MoveDraws(s[..k]))).0)
  {
    MoveAllDraws(s, gridSize, rng);
    forall k | 0 <= k < |s| {
      MoveAllAt(s, gridSize, rng, k);
    }
  }

  /** One tick of the simulation loop: movement, infection spread, resolution. */
  function Tick(s: Population, cfg: Config, rng: Stream<Raw>): (r: (Population, Stream<Raw>))
    ensures |r.0| == |s|
  {
    var moved := MoveAll(s, cfg.gridSize, rng);
    var spread := SpreadPass(moved.0, 0, cfg.infectionRadius, cfg.infectionProb, moved.1);
    ResolvePass(spread.0, cfg.recoveryProb, cfg.quarantineProb, spread.1)
  }

  /** How one agent's record evolves over a tick, as the three passes allow. */
  lemma {:induction false} TickPerAgent(s: Population, cfg: Config, rng: Stream<Raw>, k: nat)
    requires k < |s|
    ensures var t := Tick(s, cfg, rng).0;
      && t[k].quarantineDuration == s[k].quarantineDuration
      && (Valid(s[k], cfg.gridSize) ==> Valid(t[k], cfg.gridSize))
      && (s[k].state == Recovered ==> t[k].state == Recovered)
      && (s[k].state == Quarantined ==>
            var aged := s[k].(daysInfected := s[k].daysInfected + 1);
            t[k] == if aged.daysInfected >= aged.quarantineDuration then aged.(state := Susceptible) else aged)
  {
    var moved := MoveAll(s, cfg.gridSize, rng).0;
    var spread := SpreadPass(moved, 0, cfg.infectionRadius, cfg.infectionProb, MoveAll(s, cfg.gridSize, rng).1).0;
    var resolved := Tick(s, cfg, rng).0;
    assert MovedAndAged(s[k], moved[k], cfg.gridSize);
    assert spread[k] == moved[k] || (moved[k].state == Susceptible && spread[k] == moved[k].(state := Infected));
    assert ResolvedFrom(spread[k], resolved[k], cfg.recoveryProb, cfg.quarantineProb);
  }

  /** A tick keeps every agent valid: on the grid, a non-negative day count and
      the fixed quarantine duration. */
  lemma TickPreservesValid(s: Population, cfg: Config, rng: Stream<Raw>)
    ensures AllValid(s, cfg.gridSize) ==> AllValid(Tick(s, cfg, rng).0, cfg.gridSize)
  {
    forall k | 0 <= k < |s| && AllValid(s, cfg.gridSize) ensures Valid(Tick(s, cfg, rng).0[k], cfg.gridSize) {
      TickPerAgent(s, cfg, rng, k);
    }
  }

  /** Recovered is absorbing across a tick, so the Recovered count never drops. */
  lemma TickKeepsRecovered(s: Population, cfg: Config, rng: Stream<Raw>)
    ensures var t := Tick(s, cfg, rng).0;
            forall k :: 0 <= k < |s| && s[k].state == Recovered ==> t[k].state == Recovered
    ensures Count(s).recovered <= Count(Tick(s, cfg, rng).0).recovered
  {
    var t := Tick(s, cfg, rng).0;
    forall k | 0 <= k < |s| && s[k].state == Recovered ensures t[k].state == Recovered {
      TickPerAgent(s, cfg, rng, k);
    }
    Bags.OccurrencesMonotone(States(s), States(t), Recovered);
    CountIsCensus(s);
    CountIsCensus(t);
    assert Censused(Count(s), multiset(States(s)));
  }

  /** `steps` ticks from population `s`: the final population, the remaining
      draws and one row per tick, counting the population that tick leaves. */
  function Run(s: Population, steps: int, cfg: Config, rng: Stream<Raw>)
    : (r: (Population, Stream<Raw>, seq<Tally>))
    ensures |r.0| == |s|
    ensures |r.2| == if steps > 0 then steps else 0
    decreases steps
  {
    if steps <= 0 then (s, rng, [])
    else
      var next := Tick(s, cfg, rng);
      var rest := Run(next.0, steps - 1, cfg, next.1);
      (rest.0, rest.1, [Count(next.0)] + rest.2)
  }

  /** Every row accounts for all `n` agents, each exactly once. */
  predicate RowsConserve(rows: seq<Tally>, n: nat) {
    forall k :: 0 <= k < |rows| ==> rows[k].Total() == n
  }

  /** The Recovered column never decreases from one row to the next. */
  predicate RecoveredNondecreasing(rows: seq<Tally>) {
    forall k :: 0 <= k < |rows| - 1 ==> rows[k].recovered <= rows[k + 1].recovered
  }

  /** The rows of a run of `steps > 0` ticks: the census after the first tick,
      then the rows of the rest of the run. */
  lemma RunUnfold(s: Population, steps: int, cfg: Config, rng: Stream<Raw>)
    requires steps > 0
    ensures var next := Tick(s, cfg, rng);
            Run(s, steps, cfg, rng).2 == [Count(next.0)] + Run(next.0, steps - 1, cfg, next.1).2
  {
  }

  lemma ConserveCons(t: Tally, rows: seq<Tally>, n: nat)
    requires t.Total() == n && RowsConserve(rows, n)
    ensures RowsConserve([t] + rows, n)
  {
  }

  lemma {:induction false} RunConservesAgents(s: Population, steps: int, cfg: Config, rng: Stream<Raw>)
    ensures RowsConserve(Run(s, steps, cfg, rng).2, |s|)
    decreases steps
  {
    if steps > 0 {
      var next := Tick(s, cfg, rng);
      var rest := Run(next.0, steps - 1, cfg, next.1);
      assert |next.0| == |s|;
      CountTotal(next.0);
      RunConservesAgents(next.0, steps - 1, cfg, next.1);
      RunUnfold(s, steps, cfg, rng);
      ConserveCons(Count(next.0), rest.2, |s|);
    }
  }

  /** Agents stay valid (in particular on the grid) for a whole run. */
  lemma {:induction false} RunPreservesValid(s: Population, steps: int, cfg: Config, rng: Stream<Raw>)
    requires AllValid(s, cfg.gridSize)
    ensures AllValid(Run(s, steps, cfg, rng).0, cfg.gridSize)
    decreases steps
  {
    if steps > 0 {
      var next := Tick(s, cfg, rng);
      TickPreservesValid(s, cfg, rng);
      RunPreservesValid(next.0, steps - 1, cfg, next.1);
    }
  }

  /** The Recovered count never drops, neither against the starting population
      nor from one row to the next. */
  lemma {:induction false} RunRecoveredGrows(s: Population, steps: int, cfg: Config, rng: Stream<Raw>)
    ensures RecoveredNondecreasing(Run(s, steps, cfg, rng).2)
    ensures steps > 0 ==> Count(s).recovered <= Run(s, steps, cfg, rng).2[0].recovered
    decreases steps
  {
    if steps > 0 {
      var next := Tick(s, cfg, rng);
      TickKeepsRecovered(s, cfg, rng);
      RunRecoveredGrows(next.0, steps - 1, cfg, next.1);
    }
  }

  /** A quarantined agent whose quarantine has `m` or more ticks to run is,
      after `m` ticks, still quarantined in the same cell with `m` more days. */
  lemma {:induction false} QuarantineCountdown(s: Population, m: nat, cfg: Config, rng: Stream<Raw>, k: nat)
    requires k < |s| && s[k].state == Quarantined
    requires s[k].daysInfected + m < s[k].quarantineDuration
    ensures Run(s, m, cfg, rng).0[k] == s[k].(daysInfected := s[k].daysInfected + m)
    decreases m
  {
    if m > 0 {
      TickPerAgent(s, cfg, rng, k);
      var next := Tick(s, cfg, rng);
      assert Run(s, m, cfg, rng).0 == Run(next.0, m - 1, cfg, next.1).0;
      QuarantineCountdown(next.0, m - 1, cfg, next.1, k);
    }
  }

  /** An agent quarantined with `d` days counted leaves quarantine (back to
      Susceptible) exactly `quarantineDuration - d` ticks later. */
  lemma {:induction false} QuarantineRelease(s: Population, cfg: Config, rng: Stream<Raw>, k: nat)
    requires k < |s| && s[k].state == Quarantined
    requires 0 <= s[k].daysInfected < s[k].quarantineDuration
    ensures Run(s, s[k].quarantineDuration - s[k].daysInfected, cfg, rng).0[k].state == Susceptible
  {
    var m := s[k].quarantineDuration - s[k].daysInfected - 1;
    QuarantineCountdown(s, m, cfg, rng, k);
    var mid := Run(s, m, cfg, rng);
    RunThenTick(s, m, cfg, rng);
    TickPerAgent(mid.0, cfg, mid.1, k);
  }

  /** `m + 1` ticks are `m` ticks followed by one more. */
  lemma {:induction false} RunThenTick(s: Population, m: nat, cfg: Config, rng: Stream<Raw>)
    ensures var mid := Run(s, m, cfg, rng);
            Run(s, m + 1, cfg, rng).0 == Tick(mid.0, cfg, mid.1).0
    decreases m
  {
    if m > 0 {
      var next := Tick(s, cfg, rng);
      RunThenTick(next.0, m - 1, cfg, next.1);
    }
  }

  /** A population of one need not stay in {Infected, Recovered, Quarantined}:
      a lone agent at the end of its quarantine returns to Susceptible. */
  lemma LoneAgentLeavesQuarantine(cfg: Config, rng: Stream<Raw>)
    ensures Tick([Agent(Quarantined, 0, 0, 4, QUARANTINE_DURATION)], cfg, rng).0[0].state == Susceptible
  {
    TickPerAgent([Agent(Quarantined, 0, 0, 4, QUARANTINE_DURATION)], cfg, rng, 0);
  }

  /** Infection cascades within one pass: agent 2, infected by agent 1, goes on
      to infect agent 0, which is out of reach of every agent Infected when the
      pass began. */
  lemma SameTickCascade()
    ensures
      var s := [Agent(Susceptible, 2, 0, 0, 5), Agent(Infected, 0, 0, 0, 5), Agent(Susceptible, 1, 0, 0, 5)];
      var t := SpreadPass(s, 0, 1, 0.5, Stream((k: nat) => 0, 0)).0;
      && !InContact(s[1], s[0], 1)
      && t[0].state == Infected && t[2].state == Infected
  {
    var s := [Agent(Susceptible, 2, 0, 0, 5), Agent(Infected, 0, 0, 0, 5), Agent(Susceptible, 1, 0, 0, 5)];
    var rng: Stream<Raw> := Stream((k: nat) => 0, 0);
    var s1 := s[2 := s[2].(state := Infected)];
    var s2 := s1[0 := s1[0].(state := Infected)];
    assert SpreadFrom(s, 1, 0, 1, 0.5, rng) == (s1, rng.Tail());
    var rest := rng.Tail().Tail();
    assert InContact(s1[2], s1[0], 1) && Unit(rng.Tail().Head()) < 0.5;
    assert SpreadFrom(s1, 2, 0, 1, 0.5, rng.Tail()) == SpreadFrom(s2, 2, 1, 1, 0.5, rest);
    assert SpreadFrom(s2, 2, 1, 1, 0.5, rest) == SpreadFrom(s2, 2, 2, 1, 0.5, rest);
    assert SpreadFrom(s2, 2, 2, 1, 0.5, rest) == SpreadFrom(s2, 2, 3, 1, 0.5, rest);
    assert SpreadPass(s, 0, 1, 0.5, rng) == SpreadPass(s2, 3, 1, 0.5, rest);
  }

  /** A probability of 1 does not make infection certain: `rand()` may return
      RAND_MAX, and then the draw is 1.0, which is not below 1.0. */
  lemma CertainInfectionCanMiss()
    ensures
      var s := [Agent(Infected, 0, 0, 0, 5), Agent(Susceptible, 0, 0, 0, 5)];
      SpreadPass(s, 0, 0, 1.0, Stream((k: nat) => RAND_MAX, 0)).0[1].state == Susceptible
  {
    var s := [Agent(Infected, 0, 0, 0, 5), Agent(Susceptible, 0, 0, 0, 5)];
    var rng: Stream<Raw> := Stream((k: nat) => RAND_MAX, 0);
    assert SpreadFrom(s, 0, 0, 0, 1.0, rng) == (s, rng.Tail());
    assert SpreadPass(s, 0, 0, 1.0, rng) == SpreadPass(s, 2, 0, 1.0, rng.Tail());
  }

  /** The whole simulation: initialisation, then `totalSteps` ticks. */
  function Simulate(cfg: Config, rng: Stream<Raw>): (rows: seq<Tally>)
    requires cfg.numAgents <= 0 || cfg.gridSize > 0
    ensures |rows| == if cfg.totalSteps > 0 then cfg.totalSteps else 0
    ensures RowsConserve(rows, if cfg.numAgents > 0 then cfg.numAgents else 0)
    ensures RecoveredNondecreasing(rows)
  {
    var (agents, rng') := Init(cfg.numAgents, cfg.gridSize, cfg.vaccinationProb, rng);
    RunConservesAgents(agents, cfg.totalSteps, cfg, rng');
    RunRecoveredGrows(agents, cfg.totalSteps, cfg, rng');
    Run(agents, cfg.totalSteps, cfg, rng').2
  }
}

=== FILE: agents.dfy ===
/** The agent record of the agent-based model and the per-agent operations:
    bounded unit-step movement, the day counter and the contact test. */
module Agents {
  import opened Draws

  /** The five epidemiological states. */
  datatype State = Susceptible | Infected | Recovered | Vaccinated | Quarantined

  /** Every agent is built with the same quarantine length, in ticks. */
  const QUARANTINE_DURATION: int := 5

  datatype Agent = Agent(
    state: State,
    x: int,
    y: int,
    daysInfected: int,       // ticks spent Infected or Quarantined
    quarantineDuration: int  // ticks a quarantine lasts
  )

  type Population = seq<Agent>

  /** The agent constructor: position and state given, no days counted yet. */
  function NewAgent(x: int, y: int, state: State): (a: Agent)
    ensures a.state == state && a.x == x && a.y == y
    ensures a.daysInfected == 0 && a.quarantineDuration == QUARANTINE_DURATION
    ensures forall g :: Valid(a, g) <==> 0 <= x < g && 0 <= y < g
  {
    Agent(state, x, y, 0, QUARANTINE_DURATION)
  }

  predicate InBounds(a: Agent, gridSize: int) {
    0 <= a.x < gridSize && 0 <= a.y < gridSize
  }

  /** The invariant every agent keeps for the whole run. */
  predicate Valid(a: Agent, gridSize: int) {
    InBounds(a, gridSize) && a.daysInfected >= 0 && a.quarantineDuration == QUARANTINE_DURATION
  }

  predicate AllValid(s: Population, gridSize: int) {
    forall k :: 0 <= k < |s| ==> Valid(s[k], gridSize)
  }

  /** `b` sits on a grid neighbour of `a`: exactly one coordinate differs, by exactly 1. */
  predicate Neighbours(a: Agent, b: Agent) {
    || (b.y == a.y && (b.x == a.x + 1 || b.x == a.x - 1))
    || (b.x == a.x && (b.y == a.y + 1 || b.y == a.y - 1))
  }

  predicate SamePosition(a: Agent, b: Agent) {
    a.x == b.x && a.y == b.y
  }

  /** The displacement each value of `rand() % 4` stands for:
      0 left, 1 right, 2 down, 3 up. */
  function Offset(direction: int): (int, int)
    requires 0 <= direction < 4
  {
    match direction
    case 0 => (-1, 0)
    case 1 => (1, 0)
    case 2 => (0, -1)
    case _ => (0, 1)
  }

  function Shifted(a: Agent, direction: int): Agent
    requires 0 <= direction < 4
  {
    a.(x := a.x + Offset(direction).0, y := a.y + Offset(direction).1)
  }

  /** One attempted unit step in the given direction, as the guarded
      if/else-if chain of the source writes it. */
  function Step(a: Agent, gridSize: int, direction: int): (b: Agent)
    requires 0 <= direction < 4
    ensures InBounds(a, gridSize) ==>
              b == if InBounds(Shifted(a, direction), gridSize) then Shifted(a, direction) else a
    ensures b == a || Neighbours(a, b)
  {
    if direction == 0 && a.x > 0 then a.(x := a.x - 1)
    else if direction == 1 && a.x < gridSize - 1 then a.(x := a.x + 1)
    else if direction == 2 && a.y > 0 then a.(y := a.y - 1)
    else if direction == 3 && a.y < gridSize - 1 then a.(y := a.y + 1)
    else a
  }

  /** `Agent::move`: a Quarantined agent stays put and draws nothing; any other
      agent draws a direction and takes one unit step if it stays on the grid. */
  function Move(a: Agent, gridSize: int, rng: Stream<Raw>): (r: (Agent, Stream<Raw>))
    ensures r.0.state == a.state && r.0.daysInfected == a.daysInfected
    ensures r.0.quarantineDuration == a.quarantineDuration
    ensures a.state == Quarantined ==> r == (a, rng)
    ensures a.state != Quarantined ==> r.1 == rng.Tail()
    ensures InBounds(a, gridSize) ==> InBounds(r.0, gridSize)
    ensures r.0 == a || Neighbours(a, r.0)
  {
    if a.state != Quarantined then (Step(a, gridSize, rng.Head() % 4), rng.Tail())
    else (a, rng)
  }

  /** From a position on the grid, a moving agent goes exactly where its drawn
      direction points if that cell is on the grid, and otherwise stays where it
      is: a blocked direction is not retried. */
  lemma MoveIsBoundedStep(a: Agent, gridSize: int, rng: Stream<Raw>)
    requires a.state != Quarantined && InBounds(a, gridSize)
    ensures var target := Shifted(a, rng.Head() % 4);
            Move(a, gridSize, rng).0 == if InBounds(target, gridSize) then target else a
  {
  }

  /** The states in which `days_infected` advances. */
  predicate Counting(s: State) {
    s == Infected || s == Quarantined
  }

  /** `Agent::update_days`. */
  function UpdateDays(a: Agent): (b: Agent)
    ensures b.(daysInfected := a.daysInfected) == a
    ensures b.daysInfected == a.daysInfected + 1 <==> Counting(a.state)
    ensures b.daysInfected == a.daysInfected <==> !Counting(a.state)
  {
    if Counting(a.state) then a.(daysInfected := a.daysInfected + 1) else a
  }

  /** `is_in_contact`: squared distance at most the squared radius. */
  predicate InContact(a: Agent, b: Agent, radius: int) {
    var dx := a.x - b.x;
    var dy := a.y - b.y;
    dx * dx + dy * dy <= radius * radius
  }

  lemma ContactSymmetric(a: Agent, b: Agent, radius: int)
    ensures InContact(a, b, radius) <==> InContact(b, a, radius)
  {
    assert (a.x - b.x) * (a.x - b.x) == (b.x - a.x) * (b.x - a.x);
    assert (a.y - b.y) * (a.y - b.y) == (b.y - a.y) * (b.y - a.y);
  }

  /** Every agent is in contact with itself, whatever the radius. */
  lemma ContactReflexive(a: Agent, radius: int)
    ensures InContact(a, a, radius)
  {
    assert radius * radius >= 0;
  }

  /** Contact looks at positions only: state and counters play no part. */
  lemma ContactByPosition(a: Agent, b: Agent, a': Agent, b': Agent, radius: int)
    requires SamePosition(a, a') && SamePosition(b, b')
    ensures InContact(a, b, radius) <==> InContact(a', b', radius)
  {
  }

  lemma SquaresOrdered(u: int, v: int)
    requires 0 <= u < v
    ensures u * u < v * v
  {
    assert v * v - u * u == (v - u) * (v + u);
  }

  function Abs(n: int): nat {
    if n < 0 then -n else n
  }

  /** Agents in contact are at most `radius` apart along each axis. */
  lemma ContactWithinAxes(a: Agent, b: Agent, radius: int)
    requires radius >= 0 && InContact(a, b, radius)
    ensures Abs(a.x - b.x) <= radius && Abs(a.y - b.y) <= radius
  {
    var dx, dy := Abs(a.x - b.x), Abs(a.y - b.y);
    assert dx * dx == (a.x - b.x) * (a.x - b.x);
    assert dy * dy == (a.y - b.y) * (a.y - b.y);
    if radius < dx {
      SquaresOrdered(radius, dx);
    }
    if radius < dy {
      SquaresOrdered(radius, dy);
    }
  }

  /** Agents within `radius` steps along the grid (Manhattan distance) are in contact. */
  lemma ManhattanContact(a: Agent, b: Agent, radius: int)
    requires Abs(a.x - b.x) + Abs(a.y - b.y) <= radius
    ensures InContact(a, b, radius)
  {
    var dx, dy := Abs(a.x - b.x), Abs(a.y - b.y);
    assert dx * dx == (a.x - b.x) * (a.x - b.x);
    assert dy * dy == (a.y - b.y) * (a.y - b.y);
    assert dx * dy >= 0;
    assert (dx + dy) * (dx + dy) == dx * dx + 2 * dx * dy + dy * dy;
    if dx + dy < radius {
      SquaresOrdered(dx + dy, radius);
    }
  }
}

=== FILE: bags.dfy ===
/** Facts about how often a value occurs in a sequence, used by the state
    counts of both simulations. */
module Bags {

  /** If every position holding `x` in `a` still holds `x` in `b`, then `x`
      occurs in `b` at least as often as in `a`. */
  lemma {:induction false} OccurrencesMonotone<T>(a: seq<T>, b: seq<T>, x: T)
    requires |a| == |b|
    requires forall k :: 0 <= k < |a| && a[k] == x ==> b[k] == x
    ensures multiset(a)[x] <= multiset(b)[x]
  {
    if |a| > 0 {
      OccurrencesMonotone(a[1..], b[1..], x);
      assert a == [a[0]] + a[1..];
      assert b == [b[0]] + b[1..];
    }
  }

  /** `n` copies of `x`. */
  function Repeat<T>(x: T, n: nat): (r: seq<T>)
    ensures |r| == n
    ensures forall k :: 0 <= k < n ==> r[k] == x
  {
    if n == 0 then [] else [x] + Repeat(x, n - 1)
  }

  /** `n` copies of `x` hold `x` exactly `n` times and nothing else. */
  lemma {:induction false} RepeatOccurrences<T>(x: T, n: nat, y: T)
    ensures multiset(Repeat(x, n))[y] == if y == x then n else 0
  {
    if n > 0 {
      RepeatOccurrences(x, n - 1, y);
      assert Repeat(x, n) == [x] + Repeat(x, n - 1);
    }
  }
}

=== FILE: draws.dfy ===
/** Explicit random sources.  Both simulations read a process-wide generator;
    here the generator is an infinite stream handed in by the caller, so every
    run is a pure function of the stream it is given. */
module Draws {

  /** Largest value of C's rand() (the glibc value). */
  const RAND_MAX: int := 2147483647

  /** One raw rand() result. */
  type Raw = x: int | 0 <= x <= RAND_MAX

  /** One result of a uniform real distribution on [0, 1). */
  type Uniform = u: real | 0.0 <= u < 1.0

  /** An infinite stream of draws together with the position of the next draw. */
  datatype Stream<T> = Stream(at: nat -> T, pos: nat) {

    /** The next draw. */
    function Head(): T {
      at(pos)
    }

    /** The stream after the next draw has been consumed. */
    function Tail(): Stream<T> {
      Stream(at, pos + 1)
    }
  }

  /** `rand() / RAND_MAX`: a draw in [0, 1] that reaches 1 exactly when rand()
      returns RAND_MAX. */
  function Unit(raw: Raw): (u: real)
    ensures 0.0 <= u <= 1.0
    ensures u == 1.0 <==> raw == RAND_MAX
    ensures u == 0.0 <==> raw == 0
  {
    raw as real / RAND_MAX as real
  }
}

=== FILE: markov.dfy ===
/** `markov_chain_sir` without its file and console output: a per-individual
    discrete Markov chain over four states, stepped in index order. */
module Markov {
  import opened Draws
  import Bags

  datatype State = Susceptible | Infected | Recovered | Vaccinated

  datatype Result<T, E> = Success(value: T) | Failure(error: E)

  datatype LayoutError =
    | NegativePopulation  // the population vector cannot be built
    | IndexOutOfRange     // a write of the layout falls outside the population

  /** Factor protective measures apply to the infection probability. */
  const PROTECTION_FACTOR: real := 0.5

  /** The transitions a single step may make. */
  predicate MayStep(current: State, next: State) {
    match current
    case Susceptible => next == Susceptible || next == Infected
    case Infected => next == Infected || next == Recovered
    case Recovered => next == Recovered
    case Vaccinated => next == Vaccinated
  }

  /** `next_state`, given the draw `r` it takes first. */
  function NextState(current: State, pSi: real, pIr: real, protective: bool, r: real): (next: State)
    ensures MayStep(current, next)
    ensures current == Susceptible ==>
      (next == Infected <==> r < (if protective then pSi * PROTECTION_FACTOR else pSi))
    ensures current == Infected ==> (next == Recovered <==> r < pIr)
  {
    var pSi' := if protective then pSi * PROTECTION_FACTOR else pSi;
    if current == Susceptible && r < pSi' then Infected
    else if current == Infected && r < pIr then Recovered
    else current
  }

  /** Protective measures halve the infection probability and nothing else. */
  lemma ProtectionHalvesInfectionOnly(current: State, pSi: real, pIr: real, r: real)
    ensures NextState(current, pSi, pIr, true, r) == NextState(current, pSi * PROTECTION_FACTOR, pIr, false, r)
    ensures current != Susceptible ==> NextState(current, pSi, pIr, true, r) == NextState(current, pSi, pIr, false, r)
  {
  }

  /** With a non-negative infection probability, protection never causes an
      infection that would not have happened without it. */
  lemma ProtectionNeverHurts(pSi: real, pIr: real, r: real)
    requires pSi >= 0.0
    ensures NextState(Susceptible, pSi, pIr, true, r) == Infected ==> NextState(Susceptible, pSi, pIr, false, r) == Infected
  {
  }

  /** C++'s conversion of a double to int: truncation toward zero. */
  function TruncateToInt(x: real): (n: int)
    ensures 0.0 <= x ==> 0 <= n && n as real <= x < n as real + 1.0
    ensures x < 0.0 ==> n <= 0 && n as real - 1.0 < x <= n as real
  {
    if x >= 0.0 then x.Floor else -((-x).Floor)
  }

  /** `int vaccinated_count = population_size * vaccination_rate`. */
  function VaccinatedCount(populationSize: int, vaccinationRate: real): (v: int)
    ensures populationSize > 0 && 0.0 <= vaccinationRate < 1.0 ==> 0 <= v < populationSize
    ensures populationSize >= 0 && vaccinationRate >= 1.0 ==> v >= populationSize
    ensures populationSize >= 0 && vaccinationRate < 0.0 ==> v <= 0
    ensures var x := populationSize as real * vaccinationRate;
            && (0.0 <= x ==> v as real <= x < v as real + 1.0)
            && (x < 0.0 ==> v as real - 1.0 < x <= v as real)
  {
    var x := populationSize as real * vaccinationRate;
    TruncatedScaleBounds(populationSize, vaccinationRate, x);
    TruncateToInt(x)
  }

  /** Where the truncation of `x = n * rate` lies relative to `n` and 0. */
  lemma TruncatedScaleBounds(n: int, rate: real, x: real)
    requires x == n as real * rate
    ensures n > 0 && 0.0 <= rate < 1.0 ==> 0 <= TruncateToInt(x) < n
    ensures n >= 0 && rate >= 1.0 ==> TruncateToInt(x) >= n
    ensures n >= 0 && rate < 0.0 ==> TruncateToInt(x) <= 0
  {
    var v := TruncateToInt(x);
    if n > 0 && 0.0 <= rate < 1.0 {
      ScaleBelow(n as real, rate, x);
      ScaleNonnegative(n as real, rate, x);
      assert v as real <= x;
    } else if n >= 0 && rate >= 1.0 {
      ScaleAbove(n as real, rate, x);
      assert x < v as real + 1.0;
    } else if n >= 0 && rate < 0.0 {
      ScaleNonpositive(n as real, rate, x);
    }
  }

  lemma ScaleBelow(n: real, rate: real, x: real)
    requires x == n * rate && n > 0.0 && rate < 1.0
    ensures x < n
  {
    assert n - x == n * (1.0 - rate);
  }

  lemma ScaleAbove(n: real, rate: real, x: real)
    requires x == n * rate && n >= 0.0 && rate >= 1.0
    ensures x >= n
  {
    assert x - n == n * (rate - 1.0);
  }

  lemma ScaleNonnegative(n: real, rate: real, x: real)
    requires x == n * rate && n >= 0.0 && rate >= 0.0
    ensures x >= 0.0
  {
  }

  lemma ScaleNonpositive(n: real, rate: real, x: real)
    requires x == n * rate && n >= 0.0 && rate < 0.0
    ensures x <= 0.0
  {
    assert x == -(n * -rate);
  }

  /** The loop writing Vaccinated into positions i .. v - 1. */
  function MarkVaccinated(pop: seq<State>, i: nat, v: int): (r: seq<State>)
    requires v <= |pop|
    ensures |r| == |pop|
    ensures forall k :: 0 <= k < |pop| ==> r[k] == if i <= k < v then Vaccinated else pop[k]
    decreases v - i
  {
    if i >= v then pop else MarkVaccinated(pop[i := Vaccinated], i + 1, v)
  }

  /** The initial layout: all Susceptible, the first `v` Vaccinated, index `v`
      Infected.  A layout the source would write outside the vector is an error. */
  function InitialLayout(populationSize: int, vaccinationRate: real): (r: Result<seq<State>, LayoutError>)
    ensures populationSize < 0 ==> r == Failure(NegativePopulation)
    ensures populationSize >= 0 ==>
      (r.Success? <==> 0 <= VaccinatedCount(populationSize, vaccinationRate) < populationSize)
    ensures r.Success? ==>
      var v := VaccinatedCount(populationSize, vaccinationRate);
      && |r.value| == populationSize
      && forall k :: 0 <= k < populationSize ==>
           r.value[k] == if k < v then Vaccinated else if k == v then Infected else Susceptible
  {
    if populationSize < 0 then Failure(NegativePopulation)
    else
      var v := VaccinatedCount(populationSize, vaccinationRate);
      if v < 0 || v >= populationSize then Failure(IndexOutOfRange)
      else
        var pop := MarkVaccinated(Bags.Repeat(Susceptible, populationSize), 0, v);
        Success(pop[v := Infected])
  }

  /** A full rate (or more) leaves no slot for the infected individual. */
  lemma FullVaccinationOverflows(populationSize: nat, vaccinationRate: real)
    requires vaccinationRate >= 1.0
    ensures InitialLayout(populationSize, vaccinationRate).Failure?
  {
  }

  /** How many of each state one row reports. */
  datatype Counts = Counts(susceptible: nat, infected: nat, recovered: nat, vaccinated: nat) {
    function Total(): nat {
      susceptible + infected + recovered + vaccinated
    }
  }

  /** The if / else-if counting chain for one individual. */
  function Bump(c: Counts, s: State): Counts {
    if s == Susceptible then c.(susceptible := c.susceptible + 1)
    else if s == Infected then c.(infected := c.infected + 1)
    else if s == Recovered then c.(recovered := c.recovered + 1)
    else c.(vaccinated := c.vaccinated + 1)
  }

  function CountStates(pop: seq<State>): Counts {
    if |pop| == 0 then Counts(0, 0, 0, 0)
    else Bump(CountStates(pop[..|pop| - 1]), pop[|pop| - 1])
  }

  predicate Censused(c: Counts, m: multiset<State>) {
    && c.susceptible == m[Susceptible]
    && c.infected == m[Infected]
    && c.recovered == m[Recovered]
    && c.vaccinated == m[Vaccinated]
  }

  /** Each count is the number of individuals in that state, and the four
      counts add up to the population size. */
  lemma {:induction false} CountIsCensus(pop: seq<State>)
    ensures Censused(CountStates(pop), multiset(pop))
    ensures CountStates(pop).Total() == |pop|
  {
    if |pop| > 0 {
      var init := pop[..|pop| - 1];
      CountIsCensus(init);
      assert pop == init + [pop[|pop| - 1]];
    }
  }

  /** A population of `v` Vaccinated, then one Infected, then Susceptible. */
  predicate LayoutShaped(pop: seq<State>, v: nat) {
    && v < |pop|
    && forall k :: 0 <= k < |pop| ==>
         pop[k] == if k < v then Vaccinated else if k == v then Infected else Susceptible
  }

  /** How often state `y` occurs in a population so shaped. */
  lemma {:induction false} ShapeOccurrences(pop: seq<State>, v: nat, y: State)
    requires LayoutShaped(pop, v)
    ensures multiset(pop)[y]
            == if y == Vaccinated then v
               else if y == Infected then 1
               else if y == Susceptible then |pop| - v - 1
               else 0
  {
    ShapeSplit(pop, v);
    var vs, ss := Bags.Repeat(Vaccinated, v), Bags.Repeat(Susceptible, |pop| - v - 1);
    assert multiset(pop) == multiset(vs) + multiset([Infected]) + multiset(ss);
    Bags.RepeatOccurrences(Vaccinated, v, y);
    Bags.RepeatOccurrences(Susceptible, |pop| - v - 1, y);
  }

  lemma ShapeSplit(pop: seq<State>, v: nat)
    requires LayoutShaped(pop, v)
    ensures pop == Bags.Repeat(Vaccinated, v) + [Infected] + Bags.Repeat(Susceptible, |pop| - v - 1)
  {
    assert pop[..v] == Bags.Repeat(Vaccinated, v);
    assert pop[v + 1..] == Bags.Repeat(Susceptible, |pop| - v - 1);
    assert pop == pop[..v] + [pop[v]] + pop[v + 1..];
  }

  /** The layout holds `v` Vaccinated, one Infected and the rest Susceptible. */
  lemma LayoutCensus(populationSize: int, vaccinationRate: real)
    requires InitialLayout(populationSize, vaccinationRate).Success?
    ensures multiset(InitialLayout(populationSize, vaccinationRate).value)[Vaccinated]
            == VaccinatedCount(populationSize, vaccinationRate)
    ensures multiset(InitialLayout(populationSize, vaccinationRate).value)[Infected] == 1
    ensures multiset(InitialLayout(populationSize, vaccinationRate).value)[Susceptible]
            == populationSize - VaccinatedCount(populationSize, vaccinationRate) - 1
    ensures multiset(InitialLayout(populationSize, vaccinationRate).value)[Recovered] == 0
  {
    var pop := InitialLayout(populationSize, vaccinationRate).value;
    var v := VaccinatedCount(populationSize, vaccinationRate);
    ShapeOccurrences(pop, v, Vaccinated);
    ShapeOccurrences(pop, v, Infected);
    ShapeOccurrences(pop, v, Susceptible);
    ShapeOccurrences(pop, v, Recovered);
  }

  /** One step of the population loop from index `i` on, updating in place:
      Vaccinated individuals are skipped without a draw; any other takes a
      draw to decide protection and `next_state` takes a second. */
  function StepFrom(pop: seq<State>, i: nat, pSi: real, pIr: real, protectionRate: real, rng: Stream<Uniform>)
    : (r: (seq<State>, Stream<Uniform>))
    requires i <= |pop|
    ensures |r.0| == |pop|
    ensures forall k :: 0 <= k < i ==> r.0[k] == pop[k]
    ensures forall k :: i <= k < |pop| ==> MayStep(pop[k], r.0[k])
    decreases |pop| - i
  {
    if i == |pop| then (pop, rng)
    else if pop[i] == Vaccinated then StepFrom(pop, i + 1, pSi, pIr, protectionRate, rng)
    else
      var usesProtection := rng.Head() < protectionRate;
      var next := NextState(pop[i], pSi, pIr, usesProtection, rng.Tail().Head());
      StepFrom(pop[i := next], i + 1, pSi, pIr, protectionRate, rng.Tail().Tail())
  }

  /** How many draws the step loop takes over indices `i` up to `k`: two per
      individual that is not Vaccinated. */
  function StepDraws(pop: seq<State>, i: nat, k: nat): nat
    requires i <= k <= |pop|
    decreases k - i
  {
    if i == k then 0
    else (if pop[i] != Vaccinated then 2 else 0) + StepDraws(pop, i + 1, k)
  }

  /** The draw count over `i` up to `k` reads only those indices. */
  lemma {:induction false} StepDrawsFrame(pop: seq<State>, pop': seq<State>, i: nat, k: nat)
    requires i <= k <= |pop| == |pop'|
    requires forall m :: i <= m < k ==> pop[m] == pop'[m]
    ensures StepDraws(pop, i, k) == StepDraws(pop', i, k)
    decreases k - i
  {
    if i < k {
      StepDrawsFrame(pop, pop', i + 1, k);
    }
  }

  /** The step loop from `i` on consumes exactly two draws per individual that
      is not Vaccinated. */
  lemma {:induction false} StepFromDraws(pop: seq<State>, i: nat, pSi: real, pIr: real, protectionRate: real, rng: Stream<Uniform>)
    requires i <= |pop|
    ensures StepFrom(pop, i, pSi, pIr, protectionRate, rng).1 == Stream(rng.at, rng.pos + StepDraws(pop, i, |pop|))
    decreases |pop| - i
  {
    if i < |pop| {
      if pop[i] == Vaccinated {
        StepFromDraws(pop, i + 1, pSi, pIr, protectionRate, rng);
      } else {
        var next := NextState(pop[i], pSi, pIr, rng.Head() < protectionRate, rng.Tail().Head());
        StepFromDraws(pop[i := next], i + 1, pSi, pIr, protectionRate, rng.Tail().Tail());
        StepDrawsFrame(pop, pop[i := next], i + 1, |pop|);
      }
    }
  }

  /** Individual `k` of the step loop from `i` on: a Vaccinated one stays
      Vaccinated; any other is stepped by `next_state` with the two draws that
      follow those of the non-Vaccinated individuals from `i` up to `k`, the
      first deciding protection and the second the transition. */
  lemma {:induction false} StepFromAt(pop: seq<State>, i: nat, pSi: real, pIr: real, protectionRate: real, rng: Stream<Uniform>, k: nat)
    requires i <= k < |pop|
    ensures pop[k] == Vaccinated ==> StepFrom(pop, i, pSi, pIr, protectionRate, rng).0[k] == Vaccinated
    ensures pop[k] != Vaccinated ==>
              StepFrom(pop, i, pSi, pIr, protectionRate, rng).0[k]
              == NextState(pop[k], pSi, pIr, rng.at(rng.pos + StepDraws(pop, i, k)) < protectionRate,
                           rng.at(rng.pos + StepDraws(pop, i, k) + 1))
    decreases |pop| - i
  {
    if pop[i] == Vaccinated {
      assert StepFrom(pop, i, pSi, pIr, protectionRate, rng) == StepFrom(pop, i + 1, pSi, pIr, protectionRate, rng);
      if k > i {
        StepFromAt(pop, i + 1, pSi, pIr, protectionRate, rng, k);
      }
    } else {
      var next := NextState(pop[i], pSi, pIr, rng.Head() < protectionRate, rng.Tail().Head());
      assert StepFrom(pop, i, pSi, pIr, protectionRate, rng)
             == StepFrom(pop[i := next], i + 1, pSi, pIr, protectionRate, rng.Tail().Tail());
      if k > i {
        StepFromAt(pop[i := next], i + 1, pSi, pIr, protectionRate, rng.Tail().Tail(), k);
        StepDrawsFrame(pop, pop[i := next], i + 1, k);
      }
    }
  }

  /** The step loop from `i` on, exactly: each individual at or after `i` is
      updated by the draws its position in the loop assigns it, and the loop
      consumes two draws per individual that is not Vaccinated. */
  lemma {:induction false} StepFromExact(pop: seq<State>, i: nat, pSi: real, pIr: real, protectionRate: real, rng: Stream<Uniform>)
    requires i <= |pop|
    ensures StepFrom(pop, i, pSi, pIr, protectionRate, rng).1 == Stream(rng.at, rng.pos + StepDraws(pop, i, |pop|))
    ensures forall k :: i <= k < |pop| && pop[k] == Vaccinated ==>
              StepFrom(pop, i, pSi, pIr, protectionRate, rng).0[k] == Vaccinated
    ensures forall k :: i <= k < |pop| && pop[k] != Vaccinated ==>
              StepFrom(pop, i, pSi, pIr, protectionRate, rng).0[k]
              == NextState(pop[k], pSi, pIr, rng.at(rng.pos + StepDraws(pop, i, k)) < protectionRate,
                           rng.at(rng.pos + StepDraws(pop, i, k) + 1))
  {
    StepFromDraws(pop, i, pSi, pIr, protectionRate, rng);
    forall k | i <= k < |pop| {
      StepFromAt(pop, i, pSi, pIr, protectionRate, rng, k);
    }
  }

  /** The body of one iteration of the step loop as the source writes it:
      update each individual and count it right after, in one pass. */
  method StepAndCount(pop: seq<State>, pSi: real, pIr: real, protectionRate: real, rng: Stream<Uniform>)
    returns (next: seq<State>, rest: Stream<Uniform>, counts: Counts)
    ensures (next, rest) == StepFrom(pop, 0, pSi, pIr, protectionRate, rng)
    ensures Censused(counts, multiset(next))
    ensures counts.Total() == |pop|
  {
    next, rest, counts := pop, rng, Counts(0, 0, 0, 0);
    var i := 0;
    while i < |next|
      invariant 0 <= i <= |next| == |pop|
      invariant StepFrom(next, i, pSi, pIr, protectionRate, rest) == StepFrom(pop, 0, pSi, pIr, protectionRate, rng)
      invariant counts == CountStates(next[..i])
    {
      if next[i] != Vaccinated {
        var usesProtection := rest.Head() < protectionRate;
        rest := rest.Tail();
        next := next[i := NextState(next[i], pSi, pIr, usesProtection, rest.Head())];
        rest := rest.Tail();
      }
      assert next[..i + 1] == next[..i] + [next[i]];
      counts := Bump(counts, next[i]);
      i := i + 1;
    }
    assert next[..i] == next;
    CountIsCensus(next);
  }

  /** A step never changes who is Vaccinated, never lowers the Recovered count
      and never raises the Susceptible count. */
  lemma StepCensus(pop: seq<State>, pSi: real, pIr: real, protectionRate: real, rng: Stream<Uniform>)
    ensures var next := StepFrom(pop, 0, pSi, pIr, protectionRate, rng).0;
            && multiset(next)[Vaccinated] == multiset(pop)[Vaccinated]
            && multiset(pop)[Recovered] <= multiset(next)[Recovered]
            && multiset(next)[Susceptible] <= multiset(pop)[Susceptible]
  {
    var next := StepFrom(pop, 0, pSi, pIr, protectionRate, rng).0;
    Bags.OccurrencesMonotone(pop, next, Vaccinated);
    Bags.OccurrencesMonotone(next, pop, Vaccinated);
    Bags.OccurrencesMonotone(pop, next, Recovered);
    Bags.OccurrencesMonotone(next, pop, Susceptible);
  }

  /** The row one step writes: it counts every individual, keeps the
      Vaccinated count, and reports the Recovered and Susceptible counts the
      next step starts from. */
  lemma StepRow(pop: seq<State>, pSi: real, pIr: real, protectionRate: real, rng: Stream<Uniform>)
    ensures var next := StepFrom(pop, 0, pSi, pIr, protectionRate, rng).0;
            var row := CountStates(next);
            && row.Total() == |pop| && row.vaccinated == multiset(pop)[Vaccinated]
            && multiset(next)[Vaccinated] == multiset(pop)[Vaccinated]
            && row.recovered == multiset(next)[Recovered] && row.susceptible == multiset(next)[Susceptible]
            && multiset(pop)[Recovered] <= row.recovered && row.susceptible <= multiset(pop)[Susceptible]
  {
    StepCensus(pop, pSi, pIr, protectionRate, rng);
    CountIsCensus(StepFrom(pop, 0, pSi, pIr, protectionRate, rng).0);
  }

  /** The rows of `steps` steps from `pop`, one per step. */
  function RunSteps(pop: seq<State>, steps: int, pSi: real, pIr: real, protectionRate: real, rng: Stream<Uniform>)
    : (rows: seq<Counts>)
    ensures |rows| == if steps > 0 then steps else 0
    decreases steps
  {
    if steps <= 0 then []
    else
      var next := StepFrom(pop, 0, pSi, pIr, protectionRate, rng);
      [CountStates(next.0)] + RunSteps(next.0, steps - 1, pSi, pIr, protectionRate, next.1)
  }

  /** Every row accounts for all `n` individuals and reports `v` Vaccinated. */
  predicate RowsConserve(rows: seq<Counts>, n: nat, v: nat) {
    forall k :: 0 <= k < |rows| ==> rows[k].Total() == n && rows[k].vaccinated == v
  }

  /** Recovered never decreases and Susceptible never increases, row to row. */
  predicate RowsMonotone(rows: seq<Counts>) {
    forall k :: 0 <= k < |rows| - 1 ==>
      rows[k].recovered <= rows[k + 1].recovered && rows[k + 1].susceptible <= rows[k].susceptible
  }

  /** Putting a row in front of conserving, monotone rows keeps them so, when
      the row counts `n` individuals with `v` Vaccinated and does not run
      against the row after it. */
  lemma RowsCons(row: Counts, rest: seq<Counts>, n: nat, v: nat)
    requires row.Total() == n && row.vaccinated == v
    requires RowsConserve(rest, n, v) && RowsMonotone(rest)
    requires |rest| > 0 ==> row.recovered <= rest[0].recovered && rest[0].susceptible <= row.susceptible
    ensures RowsConserve([row] + rest, n, v) && RowsMonotone([row] + rest)
  {
    var rows := [row] + rest;
    forall k | 0 < k < |rows|
      ensures rows[k] == rest[k - 1]
    {
    }
  }

  lemma {:induction false} RunStepsCensus(pop: seq<State>, steps: int, pSi: real, pIr: real, protectionRate: real, rng: Stream<Uniform>)
    ensures RowsConserve(RunSteps(pop, steps, pSi, pIr, protectionRate, rng), |pop|, multiset(pop)[Vaccinated])
    ensures RowsMonotone(RunSteps(pop, steps, pSi, pIr, protectionRate, rng))
    ensures steps > 0 ==>
      var first := RunSteps(pop, steps, pSi, pIr, protectionRate, rng)[0];
      multiset(pop)[Recovered] <= first.recovered && first.susceptible <= multiset(pop)[Susceptible]
    decreases steps
  {
    if steps > 0 {
      var next := StepFrom(pop, 0, pSi, pIr, protectionRate, rng);
      var rest := RunSteps(next.0, steps - 1, pSi, pIr, protectionRate, next.1);
      assert RunSteps(pop, steps, pSi, pIr, protectionRate, rng) == [CountStates(next.0)] + rest;
      StepRow(pop, pSi, pIr, protectionRate, rng);
      RunStepsCensus(next.0, steps - 1, pSi, pIr, protectionRate, next.1);
      RowsCons(CountStates(next.0), rest, |pop|, multiset(pop)[Vaccinated]);
    }
  }

  /** The whole run: layout, then `totalSteps` rows. */
  function Simulate(populationSize: int, pSi: real, pIr: real, totalSteps: int, vaccinationRate: real,
                    protectionRate: real, rng: Stream<Uniform>)
    : (r: Result<seq<Counts>, LayoutError>)
    ensures r.Success? <==> InitialLayout(populationSize, vaccinationRate).Success?
    ensures r.Success? ==> |r.value| == if totalSteps > 0 then totalSteps else 0
    ensures r.Success? ==> RowsConserve(r.value, populationSize, VaccinatedCount(populationSize, vaccinationRate))
    ensures r.Success? ==> RowsMonotone(r.value)
  {
    var layout := InitialLayout(populationSize, vaccinationRate);
    if layout.Failure? then Failure(layout.error)
    else
      LayoutCensus(populationSize, vaccinationRate);
      RunStepsCensus(layout.value, totalSteps, pSi, pIr, protectionRate, rng);
      Success(RunSteps(layout.value, totalSteps, pSi, pIr, protectionRate, rng))
  }
}

=== FILE: transmission.dfy ===
/** The two transition passes of one tick of the agent-based model: infection
    spread, which rewrites the population in place while scanning it, and
    resolution (recovery, quarantine, release, vaccine breakthrough). */
module Transmission {
  import opened Draws
  import opened Agents

  /** Chance that a Vaccinated agent becomes Infected in a tick. */
  const BREAKTHROUGH_PROB: real := 0.05

  /** `t` differs from `s` only in Susceptible agents that became Infected;
      nothing else about any agent changes. */
  ghost predicate OnlyInfects(s: Population, t: Population) {
    && |t| == |s|
    && forall k :: 0 <= k < |s| ==> t[k] == s[k] || (s[k].state == Susceptible && t[k] == s[k].(state := Infected))
  }

  lemma OnlyInfectsTransitive(s: Population, t: Population, u: Population)
    requires OnlyInfects(s, t) && OnlyInfects(t, u)
    ensures OnlyInfects(s, u)
  {
  }

  /** Agent `k` is Susceptible and within reach of infector `i`: the scan of
      infector `i` draws a number for it. */
  predicate Exposed(s: Population, i: nat, k: nat, radius: int)
    requires i < |s| && k < |s|
  {
    s[k].state == Susceptible && InContact(s[i], s[k], radius)
  }

  /** How many draws the scan of infector `i` takes over agents `j .. k - 1`. */
  function DrawsBetween(s: Population, i: nat, j: nat, k: nat, radius: int): nat
    requires i < |s| && j <= k <= |s|
    decreases k - j
  {
    if j == k then 0
    else (if Exposed(s, i, j, radius) then 1 else 0) + DrawsBetween(s, i, j + 1, k, radius)
  }

  /** The draw count looks only at the infector and the agents scanned. */
  lemma {:induction false} DrawsBetweenFrame(s: Population, s': Population, i: nat, j: nat, k: nat, radius: int)
    requires i < |s| && |s'| == |s| && j <= k <= |s| && s'[i] == s[i]
    requires forall m :: j <= m < k ==> s'[m] == s[m]
    ensures DrawsBetween(s', i, j, k, radius) == DrawsBetween(s, i, j, k, radius)
    decreases k - j
  {
    if j < k {
      DrawsBetweenFrame(s, s', i, j + 1, k, radius);
    }
  }

  /** The inner loop of the infection pass for infector `i`, from agent `j` on.
      Each Susceptible agent in contact with the infector costs one draw and
      becomes Infected when the draw is below `infectionProb`.  The infector is
      read from the current population. */
  function SpreadFrom(s: Population, i: nat, j: nat, radius: int, infectionProb: real, rng: Stream<Raw>)
    : (r: (Population, Stream<Raw>))
    requires i < |s| && j <= |s| && s[i].state == Infected
    ensures OnlyInfects(s, r.0)
    ensures forall k :: 0 <= k < j ==> r.0[k] == s[k]
    ensures forall k :: 0 <= k < |s| && r.0[k] != s[k] ==> InContact(s[i], s[k], radius)
    ensures infectionProb <= 0.0 ==> r.0 == s
    ensures j < |s| ==>
              (r.0[j] != s[j] <==> Exposed(s, i, j, radius) && Unit(rng.Head()) < infectionProb)
    decreases |s| - j
  {
    if j == |s| then (s, rng)
    else if s[j].state == Susceptible && InContact(s[i], s[j], radius) then
      var s' := if Unit(rng.Head()) < infectionProb then s[j := s[j].(state := Infected)] else s;
      SpreadFrom(s', i, j + 1, radius, infectionProb, rng.Tail())
    else
      SpreadFrom(s, i, j + 1, radius, infectionProb, rng)
  }

  /** The scan of infector `i` from agent `j` on, exactly: agent `k` is infected
      if and only if it is exposed and the draw it costs (the one after the
      draws of the exposed agents scanned before it) is below `infectionProb`;
      the scan consumes one draw per exposed agent. */
  lemma {:induction false} SpreadFromExact(s: Population, i: nat, j: nat, radius: int, infectionProb: real, rng: Stream<Raw>)
    requires i < |s| && j <= |s| && s[i].state == Infected
    ensures SpreadFrom(s, i, j, radius, infectionProb, rng).1
            == Stream(rng.at, rng.pos + DrawsBetween(s, i, j, |s|, radius))
    ensures forall k :: j <= k < |s| ==>
              (SpreadFrom(s, i, j, radius, infectionProb, rng).0[k] != s[k]
               <==> Exposed(s, i, k, radius)
                    && Unit(rng.at(rng.pos + DrawsBetween(s, i, j, k, radius))) < infectionProb)
    decreases |s| - j
  {
    SpreadFromDraws(s, i, j, radius, infectionProb, rng);
    forall k | j <= k < |s|
      ensures SpreadFrom(s, i, j, radius, infectionProb, rng).0[k] != s[k] <==>
                (Exposed(s, i, k, radius)
                 && Unit(rng.at(rng.pos + DrawsBetween(s, i, j, k, radius))) < infectionProb)
    {
      SpreadFromAt(s, i, j, radius, infectionProb, rng, k);
    }
  }

  /** The scan of infector `i` from agent `j` on consumes one draw per exposed agent. */
  lemma {:induction false} SpreadFromDraws(s: Population, i: nat, j: nat, radius: int, infectionProb: real, rng: Stream<Raw>)
    requires i < |s| && j <= |s| && s[i].state == Infected
    ensures SpreadFrom(s, i, j, radius, infectionProb, rng).1
            == Stream(rng.at, rng.pos + DrawsBetween(s, i, j, |s|, radius))
    decreases |s| - j
  {
    if j < |s| {
      if Exposed(s, i, j, radius) {
        var s' := if Unit(rng.Head()) < infectionProb then s[j := s[j].(state := Infected)] else s;
        SpreadFromDraws(s', i, j + 1, radius, infectionProb, rng.Tail());
        DrawsBetweenFrame(s, s', i, j + 1, |s|, radius);
      } else {
        SpreadFromDraws(s, i, j + 1, radius, infectionProb, rng);
      }
    }
  }

  /** The scan of infector `i` from agent `j` on, at one agent `k`. */
  lemma {:induction false} SpreadFromAt(s: Population, i: nat, j: nat, radius: int, infectionProb: real, rng: Stream<Raw>, k: nat)
    requires i < |s| && j <= k < |s| && s[i].state == Infected
    ensures SpreadFrom(s, i, j, radius, infectionProb, rng).0[k] != s[k] <==>
              (Exposed(s, i, k, radius)
               && Unit(rng.at(rng.pos + DrawsBetween(s, i, j, k, radius))) < infectionProb)
    decreases |s| - j
  {
    if k > j {
      if Exposed(s, i, j, radius) {
        var s' := if Unit(rng.Head()) < infectionProb then s[j := s[j].(state := Infected)] else s;
        assert SpreadFrom(s, i, j, radius, infectionProb, rng)
               == SpreadFrom(s', i, j + 1, radius, infectionProb, rng.Tail());
        SpreadFromAt(s', i, j + 1, radius, infectionProb, rng.Tail(), k);
        DrawsBetweenFrame(s, s', i, j + 1, k, radius);
        assert Exposed(s', i, k, radius) == Exposed(s, i, k, radius);
      } else {
        assert SpreadFrom(s, i, j, radius, infectionProb, rng)
               == SpreadFrom(s, i, j + 1, radius, infectionProb, rng);
        SpreadFromAt(s, i, j + 1, radius, infectionProb, rng, k);
      }
    }
  }

  /** When every remaining draw is below `infectionProb`, the scan of infector
      `i` infects every exposed agent from `j` on. */
  lemma SpreadFromComplete(s: Population, i: nat, j: nat, radius: int, infectionProb: real, rng: Stream<Raw>)
    requires i < |s| && j <= |s| && s[i].state == Infected
    requires forall n: nat :: n >= rng.pos ==> Unit(rng.at(n)) < infectionProb
    ensures forall k :: j <= k < |s| && Exposed(s, i, k, radius) ==>
              SpreadFrom(s, i, j, radius, infectionProb, rng).0[k].state == Infected
  {
    SpreadFromExact(s, i, j, radius, infectionProb, rng);
  }

  /** The infection pass from agent `i` on: every agent that is Infected when
      its turn comes acts as infector, including agents infected earlier in the
      same pass. */
  function SpreadPass(s: Population, i: nat, radius: int, infectionProb: real, rng: Stream<Raw>)
    : (r: (Population, Stream<Raw>))
    requires i <= |s|
    ensures OnlyInfects(s, r.0)
    ensures infectionProb <= 0.0 ==> r.0 == s
    decreases |s| - i
  {
    if i == |s| then (s, rng)
    else if s[i].state == Infected then
      var (s', rng') := SpreadFrom(s, i, 0, radius, infectionProb, rng);
      OnlyInfectsTransitive(s, s', SpreadPass(s', i + 1, radius, infectionProb, rng').0);
      SpreadPass(s', i + 1, radius, infectionProb, rng')
    else
      SpreadPass(s, i + 1, radius, infectionProb, rng)
  }

  /** Every agent the pass infects has, once the pass is over, another Infected
      agent within contact range: no infection comes from nowhere. */
  lemma {:induction false} SpreadSound(s: Population, i: nat, radius: int, infectionProb: real, rng: Stream<Raw>)
    requires i <= |s|
    ensures var t := SpreadPass(s, i, radius, infectionProb, rng).0;
            forall k :: 0 <= k < |s| && t[k] != s[k] ==>
              exists m :: 0 <= m < |t| && m != k && t[m].state == Infected && InContact(t[m], t[k], radius)
    decreases |s| - i
  {
    var t := SpreadPass(s, i, radius, infectionProb, rng).0;
    if i == |s| {
    } else if s[i].state == Infected {
      var (s', rng') := SpreadFrom(s, i, 0, radius, infectionProb, rng);
      SpreadSound(s', i + 1, radius, infectionProb, rng');
      assert t == SpreadPass(s', i + 1, radius, infectionProb, rng').0;
      forall k | 0 <= k < |s| && t[k] != s[k]
        ensures exists m :: 0 <= m < |t| && m != k && t[m].state == Infected && InContact(t[m], t[k], radius)
      {
        if s'[k] != s[k] {
          // infected by agent i in this round; neither agent changes afterwards
          assert s'[i] == s[i] && t[i] == s'[i] && t[k] == s'[k];
          ContactByPosition(s[i], s[k], t[i], t[k], radius);
          assert i != k && t[i].state == Infected && InContact(t[i], t[k], radius);
        } else {
          assert t[k] != s'[k];
        }
      }
    } else {
      SpreadSound(s, i + 1, radius, infectionProb, rng);
    }
  }

  /** Every agent Susceptible in `s` and within reach of an agent at index
      `from` or later that is Infected in `s` is Infected in `t`. */
  ghost predicate InfectsAllExposed(s: Population, t: Population, from: nat, radius: int)
    requires |t| == |s|
  {
    forall m, k ::
      (from <= m < |s| && 0 <= k < |s| && s[m].state == Infected
       && s[k].state == Susceptible && InContact(s[m], s[k], radius))
      ==> t[k].state == Infected
  }

  /** When every remaining draw is below `infectionProb`, the pass from agent
      `i` on infects every Susceptible agent within reach of an agent that is
      Infected when its turn comes.  Since the pass from `i` is the scan of
      agent `i` followed by the pass from `i + 1` on the updated population,
      agents infected earlier in the pass infect in turn. */
  lemma {:induction false} SpreadPassComplete(s: Population, i: nat, radius: int, infectionProb: real, rng: Stream<Raw>)
    requires i <= |s|
    requires forall n: nat :: n >= rng.pos ==> Unit(rng.at(n)) < infectionProb
    ensures InfectsAllExposed(s, SpreadPass(s, i, radius, infectionProb, rng).0, i, radius)
    decreases |s| - i
  {
    var t := SpreadPass(s, i, radius, infectionProb, rng).0;
    if i == |s| {
    } else if s[i].state == Infected {
      var (s', rng') := SpreadFrom(s, i, 0, radius, infectionProb, rng);
      SpreadFromExact(s, i, 0, radius, infectionProb, rng);
      SpreadFromComplete(s, i, 0, radius, infectionProb, rng);
      assert t == SpreadPass(s', i + 1, radius, infectionProb, rng').0;
      SpreadPassComplete(s', i + 1, radius, infectionProb, rng');
      forall m, k | i <= m < |s| && 0 <= k < |s| && s[m].state == Infected
          && s[k].state == Susceptible && InContact(s[m], s[k], radius)
        ensures t[k].state == Infected
      {
        if m == i {
          assert Exposed(s, i, k, radius);
        } else if s'[k].state == Susceptible {
          assert s'[m] == s[m] && s'[k] == s[k];
        }
      }
    } else {
      SpreadPassComplete(s, i + 1, radius, infectionProb, rng);
    }
  }

  /** Which agent `b` the resolution pass may leave in place of agent `a`. */
  predicate ResolvedFrom(a: Agent, b: Agent, recoveryProb: real, quarantineProb: real) {
    match a.state
    case Susceptible => b == a
    case Recovered => b == a
    case Infected =>
      || b == a
      || b == a.(state := Recovered)
      || (recoveryProb < quarantineProb && b == a.(state := Quarantined, daysInfected := 0))
    case Quarantined =>
      b == if a.daysInfected >= a.quarantineDuration then a.(state := Susceptible) else a
    case Vaccinated => b == a || b == a.(state := Infected)
  }

  /** Does the resolution pass draw a number for an agent in this state? */
  predicate DrawsInResolution(s: State) {
    s == Infected || s == Vaccinated
  }

  /** The resolution step for one agent.  An Infected agent compares a single
      draw first with the recovery and then with the quarantine probability. */
  function Resolve(a: Agent, recoveryProb: real, quarantineProb: real, rng: Stream<Raw>)
    : (r: (Agent, Stream<Raw>))
    ensures ResolvedFrom(a, r.0, recoveryProb, quarantineProb)
    ensures r.1 == if DrawsInResolution(a.state) then rng.Tail() else rng
    ensures a.state == Infected ==>
      && (r.0.state == Recovered <==> Unit(rng.Head()) < recoveryProb)
      && (r.0.state == Quarantined <==> recoveryProb <= Unit(rng.Head()) < quarantineProb)
    ensures a.state == Quarantined ==> (r.0.state == Susceptible <==> a.daysInfected >= a.quarantineDuration)
    ensures a.state == Vaccinated ==> (r.0.state == Infected <==> Unit(rng.Head()) < BREAKTHROUGH_PROB)
  {
    match a.state
    case Infected =>
      var u := Unit(rng.Head());
      if u < recoveryProb then (a.(state := Recovered), rng.Tail())
      else if u < quarantineProb then (a.(state := Quarantined, daysInfected := 0), rng.Tail())
      else (a, rng.Tail())
    case Quarantined =>
      if a.daysInfected >= a.quarantineDuration then (a.(state := Susceptible), rng) else (a, rng)
    case Vaccinated =>
      if Unit(rng.Head()) < BREAKTHROUGH_PROB then (a.(state := Infected), rng.Tail()) else (a, rng.Tail())
    case _ => (a, rng)
  }

  /** The resolution pass over the whole population, in index order. */
  function ResolvePass(s: Population, recoveryProb: real, quarantineProb: real, rng: Stream<Raw>)
    : (r: (Population, Stream<Raw>))
    ensures |r.0| == |s|
    ensures forall k :: 0 <= k < |s| ==> ResolvedFrom(s[k], r.0[k], recoveryProb, quarantineProb)
  {
    if |s| == 0 then ([], rng)
    else
      var (a, rng') := Resolve(s[0], recoveryProb, quarantineProb, rng);
      var (rest, rng'') := ResolvePass(s[1..], recoveryProb, quarantineProb, rng');
      ([a] + rest, rng'')
  }

  /** How many draws the resolution pass takes over `s`: one per Infected or
      Vaccinated agent. */
  function ResolveDraws(s: Population): nat {
    if |s| == 0 then 0
    else (if DrawsInResolution(s[0].state) then 1 else 0) + ResolveDraws(s[1..])
  }

  /** The resolution pass consumes exactly one draw per Infected or Vaccinated agent. */
  lemma {:induction false} ResolvePassDraws(s: Population, recoveryProb: real, quarantineProb: real, rng: Stream<Raw>)
    ensures ResolvePass(s, recoveryProb, quarantineProb, rng).1 == Stream(rng.at, rng.pos + ResolveDraws(s))
  {
    if |s| > 0 {
      var rng' := Resolve(s[0], recoveryProb, quarantineProb, rng).1;
      ResolvePassDraws(s[1..], recoveryProb, quarantineProb, rng');
    }
  }

  /** Past the first agent, the resolution pass carries on over the rest from
      the stream the first agent leaves. */
  lemma ResolvePassShift(s: Population, recoveryProb: real, quarantineProb: real, rng: Stream<Raw>, k: nat)
    requires 0 < k < |s|
    ensures ResolvePass(s, recoveryProb, quarantineProb, rng).0[k]
            == ResolvePass(s[1..], recoveryProb, quarantineProb, Resolve(s[0], recoveryProb, quarantineProb, rng).1).0[k - 1]
  {
  }

  /** Splitting the first agent off a prefix of the draw count. */
  lemma ResolveDrawsShift(s: Population, k: nat)
    requires 0 < k <= |s|
    ensures ResolveDraws(s[..k]) == (if DrawsInResolution(s[0].state) then 1 else 0) + ResolveDraws(s[1..][..k - 1])
  {
    assert s[..k][1..] == s[1..][..k - 1];
  }

  /** Agent `k` of the resolution pass is resolved by `Resolve` with the draw
      that follows those of the drawing agents before it. */
  lemma {:induction false} ResolvePassAt(s: Population, recoveryProb: real, quarantineProb: real, rng: Stream<Raw>, k: nat)
    requires k < |s|
    ensures ResolvePass(s, recoveryProb, quarantineProb, rng).0[k]
            == Resolve(s[k], recoveryProb, quarantineProb, Stream(rng.at, rng.pos + ResolveDraws(s[..k]))).0
  {
    if k == 0 {
      assert ResolvePass(s, recoveryProb, quarantineProb, rng).0[0] == Resolve(s[0], recoveryProb, quarantineProb, rng).0;
      assert Stream(rng.at, rng.pos + ResolveDraws(s[..0])) == rng;
    } else {
      var first := Resolve(s[0], recoveryProb, quarantineProb, rng);
      assert first.1 == Stream(rng.at, rng.pos + if DrawsInResolution(s[0].state) then 1 else 0);
      ResolvePassShift(s, recoveryProb, quarantineProb, rng, k);
      ResolveDrawsShift(s, k);
      ResolvePassAt(s[1..], recoveryProb, quarantineProb, first.1, k - 1);
      assert s[1..][k - 1] == s[k];
    }
  }

  /** The resolution pass, exactly: it applies `Resolve` to each agent in index
      order, handing each agent the draw after those of the Infected and
      Vaccinated agents before it. */
  lemma {:induction false} ResolvePassExact(s: Population, recoveryProb: real, quarantineProb: real, rng: Stream<Raw>)
    ensures ResolvePass(s, recoveryProb, quarantineProb, rng).1 == Stream(rng.at, rng.pos + ResolveDraws(s))
    ensures forall k :: 0 <= k < |s| ==>
              ResolvePass(s, recoveryProb, quarantineProb, rng).0[k]
              == Resolve(s[k], recoveryProb, quarantineProb, Stream(rng.at, rng.pos + ResolveDraws(s[..k]))).0
  {
    ResolvePassDraws(s, recoveryProb, quarantineProb, rng);
    forall k | 0 <= k < |s| {
      ResolvePassAt(s, recoveryProb, quarantineProb, rng, k);
    }
  }

  /** Because one draw serves both comparisons, no agent enters quarantine when
      the quarantine probability does not exceed the recovery probability. */
  lemma NoQuarantineWhenDominated(s: Population, recoveryProb: real, quarantineProb: real, rng: Stream<Raw>)
    requires quarantineProb <= recoveryProb
    ensures var t := ResolvePass(s, recoveryProb, quarantineProb, rng).0;
            forall k :: 0 <= k < |s| && t[k].state == Quarantined ==> s[k].state == Quarantined
  {
  }
}
